=== FILE: README.md ===
# chamonix-3d navigation core in Dafny

chamonix-3d renders a walkable 3-D terrain of the Chamonix valley from a
greyscale heightmap. This project models the numerical core of that
viewer:

- **the height sampler** (`HeightSampler`, `height_sampler.dfy`). A world
  point (x, z) maps to texture coordinates with Z mirrored. Those become a
  pixel clamped into the raster, then an RGBA offset. The grey level is the
  RGB average, and the result is `gray * scale + bias`. A missing image or a
  missing 2-D context gives the constant-zero sampler.
- **the first-person ground-following controller** (`FirstPerson`,
  `first_person.dfy`). It is a class holding the held-key map, the view
  angles and the camera.
  - Key events update the map.
  - A pointer-locked mouse move turns the yaw and clamps the pitch.
  - Each frame clamps the time step to 1/30 s and builds the key direction,
    normalising it. It turns the direction by the yaw and moves the camera
    by `speed * dt * 10`. It then eases the height toward ground plus eye
    height and reports the new position.
- **the simple world-axis controller** (`SimpleMovement`,
  `simple_movement.dfy`). It moves by `speed * dt` along the world X and Z
  axes, one field update per held key.
- **the terrain's vertex-colour fill** (`TerrainColors`,
  `terrain_colors.dfy`). It loops over the position buffer three entries at
  a time. Each vertex gets a grass, rock or snow colour from its normalised
  "height". That height is the buffer's second coordinate. The plane is
  displaced on the GPU and rotated afterwards, so this is the flat plane's
  in-plane coordinate, not the displaced height. It spans ±200 on the
  default 400-unit plane against a displacement range of ±70, so the
  normalised value runs from about -0.93 to 1.93 and the edge colours leave
  the ramp's ranges (`TerrainColors.DefaultPlaneEdges`).
- **the change-reporting camera watcher** (`CameraWatcher`,
  `camera_watcher.dfy`). It has one "previous position" slot. A frame
  reports the camera position only when that position differs from the
  slot.

Two modules are shared by the rest:

- `Scene` (`scene.dfy`) holds vectors, Euler angles, the shared camera
  object and the frame-time clamp.
- `KeyState` (`key_state.dfy`) holds the key map and the key direction.

The controllers are classes whose methods update their fields and the
camera in place. Each method is proved against a pure function:
`StepPosition`, `WorldStep`, `Colors` or `Watch`. The properties the code
promises are proved about those functions as lemmas.

Some behaviours of the code that a reader might not expect, all modelled
as written:

- When the image or the 2-D context is missing, the sampler returns the
  constant 0 everywhere, even when a displacement bias is given.
- Z is mirrored: `v = 0.5 - z / PLANE_HEIGHT`, so larger z reads rows
  nearer the top of the image. On a 2 x 2 raster with grey levels 0, 255
  (top row) and 128, 64 (bottom row), the point (-0.9, -0.9) reads the
  bottom-left pixel (grey 128) and the point (0.9, 0.9) the top-right pixel
  (grey 255). See `HeightSampler.MirroredExample`.
- The grey level is the average of the R, G and B bytes, so pure red,
  pure green and pure blue all read a third of full scale
  (`HeightSampler.ChannelAverageExample`).
- The planar step is multiplied by an extra factor 10 on top of the speed.
  One second of W held at the default speed 8 covers 80 world units
  (`FirstPerson.OneSecondForward`).
- Pitch is clamped to the closed interval [-pi/2, pi/2]; the limits
  themselves are reachable.
- The rock band's grey runs from 0.4 up to, but not including, 0.44,
  although the comment at `src/components/HeightmapTerrain.tsx:48` gives
  its range as 0.4 to 0.5. At the snow line the grey jumps to 0.5
  (`TerrainColors.RampLinear`).

Trigonometry and square roots are not computed. The first-person controller
holds `sinOf` and `cosOf` (standing for `Math.sin` and `Math.cos`) and
`root2` (standing for `Math.sqrt(2)`). Lemmas that need them assume
`s * s + c * c == 1` or `root2 * root2 == 2`; the controller's invariant
requires `root2 > 0` and `root2 * root2 == 2`. The plane dimensions
`PLANE_WIDTH` and `PLANE_HEIGHT` are positive parameters of the sampler.
All arithmetic is on exact reals.

## Model

| member | source | states |
|---|---|---|
| Scene.ClampDelta | src/scene/FirstPersonGroundController.tsx:73 | the frame time used is at most 1/30 s; it is `delta` below 1/30 and exactly 1/30 at or above it |
| KeyState.Press | src/scene/FirstPersonGroundController.tsx:38 | after `keydown` the code is held; every other entry keeps its presence and value |
| KeyState.Release | src/scene/FirstPersonGroundController.tsx:39 | after `keyup` the code is recorded and not held; every other entry keeps its presence and value |
| KeyState.KeyDirection | src/scene/FirstPersonGroundController.tsx:81-85 | each component is in {-1, 0, 1}; z is -1 exactly when W is held without S and +1 exactly when S is held without W; likewise x for A and D, so opposite keys cancel |
| KeyState.UnmappedKeysIgnored | src/scene/FirstPersonGroundController.tsx:81-85 | an event for a code other than W, A, S, D leaves the direction unchanged |
| HeightSampler.CanvasSize | src/scene/heightSampler.ts:16-17 | the canvas dimension is at least 1; it is the image's dimension when reported, otherwise 1024 |
| HeightSampler.CreateHeightSampler | src/scene/heightSampler.ts:6-25 | the sampler is the constant-zero one exactly when the image or the 2-D context is missing; otherwise it reads the given pixels over a canvas of the defaulted size, with the given plane size, scale and bias |
| HeightSampler.FallbackIsZero | src/scene/heightSampler.ts:11-19 | a missing image or context yields a sampler returning 0 at every point |
| HeightSampler.ToPixel | src/scene/heightSampler.ts:29-30 | the clamped pixel lies in [0, n-1]; a coordinate at or below 0 gives 0 and one at or above 1 gives n-1; for t in [0, 1) it is the cell containing `t * n`, that is `p <= t * n < p + 1` |
| HeightSampler.FloorWindow | src/scene/heightSampler.ts:29-30 | `floor(t * n)` is at most 0 for t <= 0, at least n for t >= 1, in [0, n-1] for t in [0, 1), and within one below `t * n` |
| HeightSampler.U | src/scene/heightSampler.ts:26 | the texture coordinate u undoes to x: `(u - 0.5) * PLANE_WIDTH == x` |
| HeightSampler.V | src/scene/heightSampler.ts:27 | the texture coordinate v undoes to z with Z mirrored: `(0.5 - v) * PLANE_HEIGHT == z` |
| HeightSampler.PixelX | src/scene/heightSampler.ts:26-29 | for every real x the column lies in [0, width-1] |
| HeightSampler.PixelY | src/scene/heightSampler.ts:27-30 | for every real z the row lies in [0, height-1] |
| HeightSampler.PixelIndex | src/scene/heightSampler.ts:32-35 | the offset is a multiple of 4 and the R, G, B (and A) bytes it reads lie inside a buffer of 4 * width * height bytes |
| HeightSampler.RowMajorInRange | src/scene/heightSampler.ts:32 | a row-major cell index `py * width + px` lies below `width * height` |
| HeightSampler.Gray | src/scene/heightSampler.ts:37 | the grey level of three bytes lies in [0, 1]; it is 0 exactly for black and 1 exactly for white |
| HeightSampler.Sample | src/scene/heightSampler.ts:25-41 | the fallback gives 0; otherwise, with scale >= 0, the height lies in [bias, scale + bias], and with scale <= 0 in [scale + bias, bias] |
| HeightSampler.ScaledBetween | src/scene/heightSampler.ts:40 | a grey level in [0, 1] scaled and biased lies between `bias` and `scale + bias`, in the order the sign of `scale` gives |
| HeightSampler.SameCellSameHeight | src/scene/heightSampler.ts:29-40 | nearest-pixel lookup: any two points that fall in the same pixel read the same height, so the height field is constant over each pixel's cell |
| HeightSampler.ClampingLaw | src/scene/heightSampler.ts:26-30 | x >= PLANE_WIDTH/2 maps to column width-1 and x <= -PLANE_WIDTH/2 to column 0; z <= -PLANE_HEIGHT/2 maps to row height-1 and z >= PLANE_HEIGHT/2 to row 0 |
| HeightSampler.SampleClampsToEdge | src/scene/heightSampler.ts:25-41 | a point beyond an edge of the plane reads the same height as the point on that edge |
| HeightSampler.ToPixelMonotone | src/scene/heightSampler.ts:29-30 | the clamped pixel never decreases as the texture coordinate grows |
| HeightSampler.PixelMonotone | src/scene/heightSampler.ts:26-30 | the column never decreases as x grows; the row never increases as z grows (Z mirrored) |
| HeightSampler.ChannelAverageExample | src/scene/heightSampler.ts:33-40 | the grey level averages R, G and B: on a one-pixel raster with scale 3, a pure red, a pure green and a pure blue pixel each read height 1 at every point, not 3 or 0 |
| HeightSampler.MirroredExample | src/scene/heightSampler.ts:26-40 | on a 2 x 2 raster, (-0.9, -0.9) reads pixel (0, 1) and (0.9, 0.9) reads pixel (1, 0), giving heights 128/255*10-5 and 5 |
| FirstPerson.Normalize | src/scene/FirstPersonGroundController.tsx:92 | a zero direction stays zero; every component keeps its sign; the result is parallel to the key direction (`n.x * d.z == n.z * d.x`) |
| FirstPerson.NormalizeUnit | src/scene/FirstPersonGroundController.tsx:92 | a non-zero key direction normalises to unit length |
| FirstPerson.WorldDirectionFrame | src/scene/FirstPersonGroundController.tsx:95-97 | read back along forward (sin yaw, cos yaw) and strafe (cos yaw, -sin yaw), the world direction has components `n.z` and `n.x` times `s^2 + c^2`: the yaw only rotates the key direction |
| FirstPerson.StrafeFrame | src/scene/FirstPersonGroundController.tsx:95-103 | with D alone one frame moves by one step along (cos yaw, -sin yaw), with A alone along its opposite; the height is kept |
| FirstPerson.Displacement | src/scene/FirstPersonGroundController.tsx:95-100 | the velocity is horizontal, and zero when no direction is held |
| FirstPerson.DisplacementLength | src/scene/FirstPersonGroundController.tsx:95-100 | with (sin yaw, cos yaw) on the unit circle, the squared velocity length is the squared direction length times the squared step |
| FirstPerson.SmoothingFactor | src/scene/FirstPersonGroundController.tsx:109 | the easing factor is at most 1, and for a clamped time in [0, 1/30] it is in [0, 1/3] and equals `dt * 10` |
| FirstPerson.Approach | src/scene/FirstPersonGroundController.tsx:106-109 | for a factor in [0, 1] the new height lies between the old height and the target: no overshoot |
| FirstPerson.EaseRemainder | src/scene/FirstPersonGroundController.tsx:109 | easing by `k` leaves exactly the fraction `1 - k` of the gap to the target |
| FirstPerson.EaseProgress | src/scene/FirstPersonGroundController.tsx:109 | for k in (0, 1] the height moves strictly toward a target it is not at, and k = 1 lands on the target |
| FirstPerson.EaseBetween | src/scene/FirstPersonGroundController.tsx:109 | the eased value `y + (target - y) * k` lies between `y` and `target` for k in [0, 1] |
| FirstPerson.EyeLevel | src/scene/FirstPersonGroundController.tsx:106-107 | on the flat fallback the eye level is the eye height; with scale >= 0 it lies between `bias + eyeHeight` and `scale + bias + eyeHeight` |
| FirstPerson.GapNeverGrows | src/scene/FirstPersonGroundController.tsx:106-109 | for a factor in [0, 1] the distance to the desired height never grows |
| FirstPerson.PlanarStep | src/scene/FirstPersonGroundController.tsx:81-103 | the planar move keeps the height; with no movement key held the position is unchanged |
| FirstPerson.StepPosition | src/scene/FirstPersonGroundController.tsx:73-109 | x and z are those of the planar move; for delta >= 0 the new height lies between the old height and the eye level at the new position |
| FirstPerson.StepHeightIsEased | src/scene/FirstPersonGroundController.tsx:103-109 | the height after a frame is the old height eased by `min(1, dt * 10)` toward the eye level at the moved x, z |
| FirstPerson.StepApproachesEyeLevel | src/scene/FirstPersonGroundController.tsx:71-109 | for delta > 0 the easing factor lies in (0, 1/3], and a height below (above) the eye level rises (falls) strictly without passing it |
| FirstPerson.ClampLaw | src/scene/FirstPersonGroundController.tsx:73 | every delta >= 1/30 gives exactly the frame of delta = 1/30 |
| FirstPerson.PlanarStepLength | src/scene/FirstPersonGroundController.tsx:92-103 | with a movement key held, one frame moves exactly `speed * min(delta, 1/30) * 10` horizontally, diagonals included |
| FirstPerson.ClampPitch | src/scene/FirstPersonGroundController.tsx:60 | the pitch ends in [-pi/2, pi/2]; it is unchanged inside and pinned to the nearer bound outside |
| FirstPerson.Look | src/scene/FirstPersonGroundController.tsx:58-60 | after a locked mouse move the pitch is in [-pi/2, pi/2]; the yaw decreases by movementX * 0.0025 |
| FirstPerson.LookAllBounds | src/scene/FirstPersonGroundController.tsx:58-60 | after any non-empty series of moves the pitch is in [-pi/2, pi/2] while the yaw has turned by the total movement times 0.0025, unbounded |
| FirstPerson.ForwardFrame | src/scene/FirstPersonGroundController.tsx:95-103 | with W alone, one frame moves by one step along -(sin yaw, cos yaw) |
| FirstPerson.WalkForward | src/scene/FirstPersonGroundController.tsx:95-103 | with W alone, n frames move by n steps along -(sin yaw, cos yaw) |
| FirstPerson.FrameWalkIsPlanarWalk | src/scene/FirstPersonGroundController.tsx:103-109 | over any number of whole frames, ground following changes only the height: x and z are those of the iterated planar move |
| FirstPerson.OneSecondPlanar | src/scene/FirstPersonGroundController.tsx:100 | 30 planar moves of 1/30 s at speed 8 with W held move by (-80 sin yaw, -80 cos yaw), a distance of exactly 80 on the unit circle |
| FirstPerson.OneSecondForward | src/scene/FirstPersonGroundController.tsx:71-112 | 30 whole frames of 1/30 s at speed 8 with W held, ground following included, move x and z by -80 sin yaw and -80 cos yaw |
| FirstPerson.Controller.constructor | src/scene/FirstPersonGroundController.tsx:6-26 | no keys held, view angles zero, not yet initialised; the props are kept |
| FirstPerson.Controller.Rerender | src/scene/FirstPersonGroundController.tsx:6-20 | a render with new props replaces the sampler, eye height, speed and pointer-lock flag; keys, view angles and the initialisation flag carry over |
| FirstPerson.Controller.ApplyInitialPosition | src/scene/FirstPersonGroundController.tsx:28-35 | given the current `initialPosition` prop: the first time one is present, the camera moves there, the view angles are read back and the flag is set; otherwise nothing changes |
| FirstPerson.InitialPositionOnce | src/scene/FirstPersonGroundController.tsx:26-35 | a controller mounted without a position is seeded by the first position that arrives and ignores a later one |
| FirstPerson.Controller.OnKeyDown | src/scene/FirstPersonGroundController.tsx:38 | the key map becomes `Press` of the old one |
| FirstPerson.Controller.OnKeyUp | src/scene/FirstPersonGroundController.tsx:39 | the key map becomes `Release` of the old one |
| FirstPerson.Controller.OnMouseMove | src/scene/FirstPersonGroundController.tsx:54-62 | in pointer-lock mode with the pointer locked, the view becomes `Look` of the old one and the camera takes it; otherwise yaw, pitch and camera orientation are unchanged; a pitch in range stays in range |
| FirstPerson.Controller.HeldDirection | src/scene/FirstPersonGroundController.tsx:81-85 | the four conditional updates compute `KeyDirection` of the held keys |
| FirstPerson.Controller.SyncOrientation | src/scene/FirstPersonGroundController.tsx:76-78 | outside pointer-lock mode the view angles are re-read from the camera; in it they are kept |
| FirstPerson.Controller.MovePlanar | src/scene/FirstPersonGroundController.tsx:80-103 | the camera moves to `PlanarStep` of its old position under the current yaw |
| FirstPerson.Controller.FollowGround | src/scene/FirstPersonGroundController.tsx:105-109 | only the height changes, eased toward the terrain height plus eye height at the camera's x, z |
| FirstPerson.Controller.Frame | src/scene/FirstPersonGroundController.tsx:71-112 | the camera ends at `StepPosition` of its old position under the frame's yaw; the reported position is exactly the camera position after movement and smoothing |
| SimpleMovement.WorldStep | src/scene/SimpleMovementController.tsx:23-31 | the height never changes; with no movement key held the position is unchanged |
| SimpleMovement.StepBounded | src/scene/SimpleMovementController.tsx:24-25 | for speed >= 0 and delta >= 0 no coordinate moves more than speed/30 in a frame |
| SimpleMovement.DefaultSpeedFrame | src/scene/SimpleMovementController.tsx:5-28 | at the default speed 50, a frame of 1/30 s or more with W alone moves z by exactly -50/30 and nothing else |
| SimpleMovement.OppositeKeysCancel | src/scene/SimpleMovementController.tsx:28-31 | W with S leaves z unchanged; A with D leaves x unchanged |
| SimpleMovement.DiagonalNotNormalized | src/scene/SimpleMovementController.tsx:28-31 | W with D moves the full step on both axes, so the squared distance is twice a single key's |
| SimpleMovement.Controller.constructor | src/scene/SimpleMovementController.tsx:5-7 | no keys held; camera and speed kept |
| SimpleMovement.Controller.OnKeyDown | src/scene/SimpleMovementController.tsx:10-13 | the key map becomes `Press` of the old one |
| SimpleMovement.Controller.OnKeyUp | src/scene/SimpleMovementController.tsx:14 | the key map becomes `Release` of the old one |
| SimpleMovement.Controller.Frame | src/scene/SimpleMovementController.tsx:23-37 | the four field updates move the camera to `WorldStep` of its old position |
| TerrainColors.NormalizedHeightAffine | src/components/HeightmapTerrain.tsx:36 | normalisation is the affine map sending -d/2 to 0 and d/2 to 1: differences scale by 1/d, and `h * d - d/2` gives back y |
| TerrainColors.NormalizedRange | src/components/HeightmapTerrain.tsx:36 | with a positive displacement, a height lies in [-d/2, d/2] exactly when its normalised height lies in [0, 1]; the ends map to 0 and 1 |
| TerrainColors.Ramp | src/components/HeightmapTerrain.tsx:40-53 | grass exactly when the colour is not grey; grass channels keep fixed offsets and lie in [0.37, 0.47), [0.54, 0.64), [0.29, 0.39) for h in [0, 0.3); rock lies in [0.4, 0.44); snow lies in [0.5, 1] up to h = 1; h = 1 is white |
| TerrainColors.RampLinear | src/components/HeightmapTerrain.tsx:40-53 | the ramp is piecewise linear: (0.37, 0.54, 0.29) at h = 0, grey 0.4 at 0.3, grey 0.5 at 0.7; within a band each channel rises by the height difference times 1/3 (grass), 1/10 (rock) or 5/3 (snow) |
| TerrainColors.RampBeyondUnit | src/components/HeightmapTerrain.tsx:40-53 | below 0 the grass is darker than 0.37 red, 0.54 green and 0.29 blue; above 1 the colour is grey and brighter than 1 |
| TerrainColors.DefaultPlaneEdges | src/components/HeightmapTerrain.tsx:14-16 | with the default plane of 400 and displacement of 140, the plane's edges normalise below 0 and above 1; the near edge has a negative blue channel and the far edge a red channel above 1 |
| TerrainColors.GreyBrightensWithHeight | src/components/HeightmapTerrain.tsx:46-53 | above the grass line the grey never darkens as the height grows |
| TerrainColors.GrassBrightensWithHeight | src/components/HeightmapTerrain.tsx:40-45 | within the grass band all three channels never decrease with the height, and strictly increase when the height does |
| TerrainColors.Colors | src/components/HeightmapTerrain.tsx:32 | the colour buffer is as long as the position buffer |
| TerrainColors.ComputeVertexColors | src/components/HeightmapTerrain.tsx:27-61 | the loop fills a freshly allocated buffer of the same length with, at each entry, the channel of the ramp colour of its vertex's height |
| TerrainColors.ColorDependsOnHeightOnly | src/components/HeightmapTerrain.tsx:34-57 | a vertex's three colour entries depend only on its own y coordinate |
| TerrainColors.ColorsInRange | src/components/HeightmapTerrain.tsx:34-57 | vertices within the displaced range get colour values in [0.29, 1] |
| CameraWatcher.Watch | src/scene/CameraController.tsx:23-28 | a frame reports exactly when the camera differs from the remembered position; the report is the camera position, and the remembered position becomes it |
| CameraWatcher.SecondFrameSilent | src/scene/CameraController.tsx:24-25 | a second frame with no movement reports nothing |
| CameraWatcher.Track | src/scene/CameraController.tsx:23-28 | over a run of frames there are at most as many reports as frames; only positions the camera held are reported; the first report differs from the remembered position and no position is reported twice in a row |
| CameraWatcher.ParentStaysInSync | src/scene/CameraController.tsx:23-28 | after any run of frames either nothing was reported and the camera never left the remembered position, or the last report is the camera's final position |
| CameraWatcher.Controller.constructor | src/scene/CameraController.tsx:12 | the remembered position starts as the camera's position |
| CameraWatcher.Controller.ApplyPosition | src/scene/CameraController.tsx:15-20 | a given position is written to the camera exactly; without one the camera is unchanged |
| CameraWatcher.Controller.Frame | src/scene/CameraController.tsx:23-28 | the remembered position and the report are those `Watch` gives for the old remembered position and the camera |
| CameraWatcher.FirstFrameSilent | src/scene/CameraController.tsx:12-28 | a fresh watcher over an unmoved camera reports nothing on its first frame |

## Left out

- Canvas decoding is not modelled: creating the canvas, `drawImage` and `getImageData` (`src/scene/heightSampler.ts:15-22`). The RGBA bytes, and whether an image and a 2-D context exist, are inputs to `CreateHeightSampler`.
- The asynchronous `Promise` wrapper around `createHeightSampler` is dropped; the model returns the sampler directly.
- `Math.sin`, `Math.cos` and `Math.sqrt(2)` are not computed. They are the controller's `sinOf`, `cosOf` and `root2`, and unit-circle facts appear only as lemma preconditions.
- FirstPerson.Normalize: defined for key directions with components in {-1, 0, 1}. It divides by `root2` only for diagonals, as `Vector3.normalize` does for those inputs. General vector normalisation is not modelled.
- Quaternion and Euler conversions (`setFromQuaternion`, `setFromEuler`) are not modelled. The camera's orientation is kept directly as the (pitch, yaw) pair that reading it back would give.
- FirstPerson.Controller.Rerender: the props of a render are modelled as fields it replaces. When `enablePointerLock` changes, the source removes and re-adds its listeners; the model only changes the flag that `OnMouseMove` and `Frame` consult.
- Event-listener registration and removal, `requestPointerLock`, the click handler, React hooks and refs are left out. Whether the pointer is locked is the `locked` parameter of `OnMouseMove`.
- FirstPerson.Controller.OnMouseMove: takes `movementX` and `movementY` as reals. The `|| 0` fallback for missing or NaN values is not modelled.
- `console.log` debug output and `camera.updateProjectionMatrix` have no effect on the modelled state and are left out.
- Floating-point and Float32 rounding are not modelled: all arithmetic is on exact reals. For example, `z - m + m` returns `z` exactly in the model.
- `onPosition` and `onChange` callbacks are modelled as the value returned by `Frame`. Whether a callback was supplied (`?.`) does not change the state.
- TerrainColors.ComputeVertexColors: requires a position buffer whose length is a multiple of 3 (as a position attribute always has) and a non-zero displacement. The source would read past the end, or divide by zero, producing non-finite colours that are not modelled.
- The displaced height of a vertex is not modelled: displacement happens on the GPU from the heightmap texture, and the colour fill reads the undisplaced in-plane coordinate, as the code does.
- The mesh-ref-missing early return in the colour effect, attaching the colour buffer to the geometry, and the texture and material settings of `HeightmapTerrain` are not modelled.
- `src/scene/LiftMarker.tsx`, `src/scene/PointOfInterest.tsx`, `src/App.tsx` and `src/scene/ChamonixScene.tsx` are UI and scene composition and are not part of this model. The plain constants of `src/scene/constants.ts` are also left out; the plane size is a parameter instead.

=== FILE: camera_watcher.dfy ===
/** The camera controller: it places the camera at an externally given
    position, and each frame reports the camera's position to its parent
    whenever it differs from the last position it saw. */
module CameraWatcher {
  import opened Scene

  /** What a frame leaves behind: the remembered position and what, if
      anything, was reported. */
  datatype WatchResult = WatchResult(previous: Vec3, report: Option<Vec3>)

  /** One frame of the watcher, remembering `prev`, with the camera at `cur`. */
  function Watch(prev: Vec3, cur: Vec3): (w: WatchResult)
    ensures w.previous == cur
    ensures w.report.Some? <==> prev != cur
    ensures w.report.Some? ==> w.report.value == cur
  {
    if prev != cur then WatchResult(cur, Some(cur)) else WatchResult(prev, None)
  }

  /** A camera that has not moved since the last frame is not reported again. */
  lemma SecondFrameSilent(prev: Vec3, cur: Vec3)
    ensures Watch(Watch(prev, cur).previous, cur).report == None
  {
  }

  /** The reports over a run of frames in which the camera is at `ps[0]`,
      `ps[1]`, ...; `prev` is what the watcher remembered before the run.
      Only positions the camera held are reported, the first report differs
      from `prev`, and no position is reported twice in a row. */
  function Track(prev: Vec3, ps: seq<Vec3>): (reports: seq<Vec3>)
    ensures |reports| <= |ps|
    ensures forall r :: r in reports ==> r in ps
    ensures |reports| > 0 ==> reports[0] != prev
    ensures forall i :: 0 < i < |reports| ==> reports[i - 1] != reports[i]
    decreases |ps|
  {
    if |ps| == 0 then []
    else
      var w := Watch(prev, ps[0]);
      var rest := Track(w.previous, ps[1..]);
      (if w.report.Some? then [w.report.value] else []) + rest
  }

  /** The parent is never left with a stale position: after any run, either
      the camera never left `prev`, or the last report is where the camera is. */
  lemma {:induction false} ParentStaysInSync(prev: Vec3, ps: seq<Vec3>)
    ensures var reports := Track(prev, ps);
      (|reports| == 0 ==> forall i :: 0 <= i < |ps| ==> ps[i] == prev) &&
      (|reports| > 0 ==> reports[|reports| - 1] == ps[|ps| - 1])
    decreases |ps|
  {
    if |ps| == 0 {
      return;
    }
    var rest := Track(ps[0], ps[1..]);
    if |ps| > 1 {
      ParentStaysInSync(ps[0], ps[1..]);
      assert ps[|ps| - 1] == ps[1..][|ps| - 2];
      if |rest| == 0 {
        forall i | 0 <= i < |ps|
          ensures ps[i] == ps[0]
        {
          if i > 0 { assert ps[i] == ps[1..][i - 1]; }
        }
      }
    }
  }

  /** The controller: the shared camera and the last position it saw. */
  class Controller {
    const camera: Camera
    var previous: Vec3

    /** The remembered position starts as a copy of the camera's. */
    constructor (camera: Camera)
      ensures this.camera == camera && previous == camera.position
    {
      this.camera := camera;
      previous := camera.position;
    }

    /** An external position, when one is given, is written to the camera. */
    method ApplyPosition(position: Option<Vec3>)
      modifies camera`position
      ensures camera.position == if position.Some? then position.value else old(camera.position)
    {
      if position.Some? {
        camera.position := position.value;
      }
    }

    /** One rendered frame: returns what `onChange` receives, if anything. */
    method Frame() returns (report: Option<Vec3>)
      modifies this`previous
      ensures WatchResult(previous, report) == Watch(old(previous), camera.position)
    {
      report := None;
      if previous != camera.position {
        previous := camera.position;
        report := Some(camera.position);
      }
    }
  }

  /** A watcher created on a camera that then does not move reports nothing
      on its first frame. */
  method FirstFrameSilent(camera: Camera) returns (report: Option<Vec3>)
    ensures report == None
  {
    var watcher := new Controller(camera);
    report := watcher.Frame();
  }
}

=== FILE: first_person.dfy ===
/** The first-person ground-following controller.

    Key events keep a record of held keys; pointer-locked mouse moves turn
    the view (yaw unbounded, pitch clamped to [-pi/2, pi/2]); every frame
    moves the camera in the horizontal plane along the view's yaw, samples
    the terrain under it and eases the camera's height toward ground level
    plus eye height, then reports the new position. */
module FirstPerson {
  import opened Scene
  import opened KeyState
  import HeightSampler

  /** Extra factor on the planar step: `speed * clampedDelta * 10`. */
  const MoveBoost: real := 10.0
  /** Rate of the vertical easing: `min(1, clampedDelta * 10)`. */
  const SmoothingRate: real := 10.0
  /** Radians of turn per pixel of mouse movement. */
  const LookSensitivity: real := 0.0025
  /** `Math.PI`. */
  const Pi: real := 3.141592653589793
  const HalfPi: real := Pi / 2.0
  const DefaultSpeed: real := 8.0

  /** A direction in the horizontal plane after normalisation. */
  datatype Planar = Planar(x: real, z: real)

  /** `direction.normalize()`, applied only when the direction is non-zero.
      An axis direction has length 1 and is left as it is; a diagonal one
      has length sqrt(2), for which `root2` stands. */
  function Normalize(d: Direction, root2: real): (n: Planar)
    requires root2 > 0.0
    ensures d == Direction(0, 0) ==> n == Planar(0.0, 0.0)
    ensures (n.x < 0.0 <==> d.x < 0) && (n.x > 0.0 <==> d.x > 0)
    ensures (n.z < 0.0 <==> d.z < 0) && (n.z > 0.0 <==> d.z > 0)
    ensures n.x * (d.z as real) == n.z * (d.x as real)
  {
    if d.x == 0 && d.z == 0 then Planar(0.0, 0.0)
    else if d.x == 0 || d.z == 0 then Planar(d.x as real, d.z as real)
    else Planar(d.x as real / root2, d.z as real / root2)
  }

  /** A non-zero key direction normalises to a unit vector. */
  lemma NormalizeUnit(d: Direction, root2: real)
    requires root2 > 0.0 && root2 * root2 == 2.0
    requires -1 <= d.x <= 1 && -1 <= d.z <= 1 && d != Direction(0, 0)
    ensures var n := Normalize(d, root2); n.x * n.x + n.z * n.z == 1.0
  {
    if d.x != 0 && d.z != 0 {
      assert (d.x as real) * (d.x as real) == 1.0 && (d.z as real) * (d.z as real) == 1.0;
      var a, b := d.x as real / root2, d.z as real / root2;
      assert a * a == 1.0 / (root2 * root2);
      assert b * b == 1.0 / (root2 * root2);
    }
  }

  function Scaled(v: Vec3, k: real): Vec3
  {
    Vec3(v.x * k, v.y * k, v.z * k)
  }

  /** The world-space direction `forward * n.z + strafe * n.x`, with
      forward = (sin yaw, 0, cos yaw) and strafe = (cos yaw, 0, -sin yaw);
      `s` and `c` are the sine and cosine of yaw. */
  function WorldDirection(n: Planar, s: real, c: real): Vec3
  {
    Scaled(Vec3(s, 0.0, c), n.z).Plus(Scaled(Vec3(c, 0.0, -s), n.x))
  }

  /** Read back along forward and strafe, the world direction has the
      components `n.z` and `n.x` (scaled by s^2 + c^2, which is 1 for a real
      yaw): the yaw only rotates the key direction. */
  lemma WorldDirectionFrame(n: Planar, s: real, c: real)
    ensures var r := WorldDirection(n, s, c);
      r.x * s + r.z * c == n.z * (s * s + c * c) &&
      r.x * c - r.z * s == n.x * (s * s + c * c)
  {
    var r := WorldDirection(n, s, c);
    assert r.x == s * n.z + c * n.x && r.z == c * n.z + (-s) * n.x;
    assert r.x * s + r.z * c == n.z * (s * s + c * c) + n.x * (c * s - s * c);
    assert r.x * c - r.z * s == n.x * (s * s + c * c) + n.z * (s * c - c * s);
  }

  /** The velocity of one frame: the world direction times `step`. It stays
      horizontal, and is zero when no direction is asked for. */
  function Displacement(n: Planar, s: real, c: real, step: real): (v: Vec3)
    ensures v.y == 0.0
    ensures n == Planar(0.0, 0.0) ==> v == Vec3(0.0, 0.0, 0.0)
  {
    Scaled(WorldDirection(n, s, c), step)
  }

  /** When (s, c) is on the unit circle, the displacement is |n| times `step` long. */
  lemma DisplacementLength(n: Planar, s: real, c: real, step: real)
    requires s * s + c * c == 1.0
    ensures var v := Displacement(n, s, c, step);
      v.x * v.x + v.z * v.z == (n.x * n.x + n.z * n.z) * (step * step)
  {
    var a, b := s * n.z + c * n.x, c * n.z + (-s) * n.x;
    assert WorldDirection(n, s, c) == Vec3(a, 0.0 * n.z + 0.0 * n.x, b);
    calc {
      a * a + b * b;
      (s * s + c * c) * (n.x * n.x + n.z * n.z);
      n.x * n.x + n.z * n.z;
    }
    assert (a * step) * (a * step) + (b * step) * (b * step) == (a * a + b * b) * (step * step);
  }

  /** `Math.min(1, clampedDelta * 10)`: the share of the height gap closed in one frame. */
  function SmoothingFactor(cd: real): (k: real)
    ensures k <= 1.0
    ensures 0.0 <= cd <= MaxDelta ==> 0.0 <= k <= 1.0 / 3.0 && k == cd * SmoothingRate
  {
    if cd * SmoothingRate < 1.0 then cd * SmoothingRate else 1.0
  }

  /** `y + (target - y) * k`: moves `y` the fraction `k` of the way to
      `target`. For k in [0, 1] the result lies between `y` and `target`, so
      it neither overshoots nor moves away. */
  function Approach(y: real, target: real, k: real): (r: real)
    ensures 0.0 <= k <= 1.0 && y <= target ==> y <= r <= target
    ensures 0.0 <= k <= 1.0 && target <= y ==> target <= r <= y
  {
    var eased := y + (target - y) * k;
    EaseBetween(y, target, k, eased);
    eased
  }

  /** Moving a fraction `k` in [0, 1] of the way keeps between the ends. */
  lemma EaseBetween(y: real, target: real, k: real, eased: real)
    requires eased == y + (target - y) * k
    ensures 0.0 <= k <= 1.0 && y <= target ==> y <= eased <= target
    ensures 0.0 <= k <= 1.0 && target <= y ==> target <= eased <= y
  {
    var gap := target - y;
    assert eased == y + gap * k;
    if 0.0 <= k <= 1.0 {
      if gap >= 0.0 {
        ScaleMonotone(0.0, k, gap);
        ScaleMonotone(k, 1.0, gap);
        assert 0.0 <= gap * k <= gap;
      }
      if gap <= 0.0 {
        var m := -gap;
        ScaleMonotone(0.0, k, m);
        ScaleMonotone(k, 1.0, m);
        assert 0.0 <= m * k <= m;
        assert m * k == -(gap * k);
        assert gap <= gap * k <= 0.0;
      }
    }
  }

  /** Easing by a factor in [0, 1] never widens the gap to the target. */
  lemma GapNeverGrows(y: real, target: real, k: real)
    requires 0.0 <= k <= 1.0
    ensures var r := Approach(y, target, k);
      (if r <= target then target - r else r - target) <= (if y <= target then target - y else y - target)
  {
    var r := Approach(y, target, k);
    if y <= target {
      assert y <= r <= target;
    } else {
      assert target <= r <= y;
    }
  }

  /** What easing by `k` leaves of the gap is the fraction `1 - k` of it. */
  lemma EaseRemainder(y: real, target: real, k: real)
    ensures target - Approach(y, target, k) == (1.0 - k) * (target - y)
  {
    var gap := target - y;
    assert target - Approach(y, target, k) == gap - gap * k;
  }

  /** Easing by a factor in (0, 1] makes progress: the height moves strictly
      toward a target it is not at, and a factor of 1 lands on the target. */
  lemma EaseProgress(y: real, target: real, k: real)
    requires 0.0 < k <= 1.0
    ensures var r := Approach(y, target, k);
      (y < target ==> y < r) && (target < y ==> r < y) &&
      (k == 1.0 ==> r == target)
  {
    var gap := target - y;
    assert Approach(y, target, k) == y + gap * k;
    if gap > 0.0 {
      ProductNonNegative(gap, k);
    } else if gap < 0.0 {
      ProductNonNegative(-gap, k);
      assert -gap * k == -(gap * k);
    }
  }

  /** The camera position after the planar move of one frame. */
  function PlanarStep(p: Vec3, keys: KeyMap, delta: real, s: real, c: real, root2: real,
                      speed: real): (q: Vec3)
    requires root2 > 0.0
    ensures q.y == p.y
    ensures !Held(keys, KeyW) && !Held(keys, KeyS) && !Held(keys, KeyA) && !Held(keys, KeyD) ==> q == p
  {
    var n := Normalize(KeyDirection(keys), root2);
    p.Plus(Displacement(n, s, c, speed * ClampDelta(delta) * MoveBoost))
  }

  /** The eye level above the terrain at the planar position of `p`. */
  function EyeLevel(sampler: HeightSampler.Sampler, p: Vec3, eyeHeight: real): (r: real)
    requires sampler.Valid()
    ensures sampler.Flat? ==> r == eyeHeight
    ensures sampler.Sampled? && sampler.scale >= 0.0 ==>
      sampler.bias + eyeHeight <= r <= sampler.scale + sampler.bias + eyeHeight
  {
    HeightSampler.Sample(sampler, p.x, p.z) + eyeHeight
  }

  /** The camera position after one frame from `p`: the planar move, then
      the height eased toward the eye level at the new planar position. The
      height ends between the old height and that eye level. */
  function StepPosition(p: Vec3, keys: KeyMap, delta: real, s: real, c: real, root2: real,
                        speed: real, eyeHeight: real, sampler: HeightSampler.Sampler): (q: Vec3)
    requires root2 > 0.0 && sampler.Valid()
    ensures var moved := PlanarStep(p, keys, delta, s, c, root2, speed);
      q.x == moved.x && q.z == moved.z
    ensures var target := EyeLevel(sampler, q, eyeHeight);
      0.0 <= delta ==>
        (p.y <= target ==> p.y <= q.y <= target) &&
        (target <= p.y ==> target <= q.y <= p.y)
  {
    var moved := PlanarStep(p, keys, delta, s, c, root2, speed);
    var target := EyeLevel(sampler, moved, eyeHeight);
    moved.(y := Approach(moved.y, target, SmoothingFactor(ClampDelta(delta))))
  }

  /** A frame of positive length moves the height toward the eye level at
      the new planar position: by the share `min(1, dt * 10)` of the gap,
      which lies in (0, 1/3], so the height strictly approaches the eye
      level whenever it is not already there, without passing it. */
  lemma StepApproachesEyeLevel(p: Vec3, keys: KeyMap, delta: real, s: real, c: real, root2: real,
                               speed: real, eyeHeight: real, sampler: HeightSampler.Sampler)
    requires root2 > 0.0 && sampler.Valid() && delta > 0.0
    ensures var q := StepPosition(p, keys, delta, s, c, root2, speed, eyeHeight, sampler);
      var target := EyeLevel(sampler, q, eyeHeight);
      var k := SmoothingFactor(ClampDelta(delta));
      0.0 < k <= 1.0 / 3.0 &&
      (p.y < target ==> p.y < q.y <= target) &&
      (target < p.y ==> target <= q.y < p.y)
  {
    var q := StepPosition(p, keys, delta, s, c, root2, speed, eyeHeight, sampler);
    var target := EyeLevel(sampler, q, eyeHeight);
    var cd := ClampDelta(delta);
    assert 0.0 < cd <= MaxDelta;
    StepHeightIsEased(p, keys, delta, s, c, root2, speed, eyeHeight, sampler);
    EaseProgress(p.y, target, SmoothingFactor(cd));
  }

  /** The height after a frame is the old height eased toward the eye level
      at the new planar position. */
  lemma StepHeightIsEased(p: Vec3, keys: KeyMap, delta: real, s: real, c: real, root2: real,
                          speed: real, eyeHeight: real, sampler: HeightSampler.Sampler)
    requires root2 > 0.0 && sampler.Valid()
    ensures var q := StepPosition(p, keys, delta, s, c, root2, speed, eyeHeight, sampler);
      q.y == Approach(p.y, EyeLevel(sampler, q, eyeHeight), SmoothingFactor(ClampDelta(delta)))
  {
    var moved := PlanarStep(p, keys, delta, s, c, root2, speed);
    var q := StepPosition(p, keys, delta, s, c, root2, speed, eyeHeight, sampler);
    assert EyeLevel(sampler, q, eyeHeight) == EyeLevel(sampler, moved, eyeHeight);
  }

  /** A frame step never exceeds what a 1/30 s frame does: any longer frame
      gives exactly the position a 1/30 s frame gives. */
  lemma ClampLaw(p: Vec3, keys: KeyMap, delta: real, s: real, c: real, root2: real,
                 speed: real, eyeHeight: real, sampler: HeightSampler.Sampler)
    requires root2 > 0.0 && sampler.Valid() && delta >= MaxDelta
    ensures StepPosition(p, keys, delta, s, c, root2, speed, eyeHeight, sampler)
         == StepPosition(p, keys, MaxDelta, s, c, root2, speed, eyeHeight, sampler)
  {
  }

  /** With a movement direction held and (s, c) on the unit circle, one frame
      moves the camera a horizontal distance of exactly
      `speed * min(delta, 1/30) * 10`; the terrain only changes its height. */
  lemma PlanarStepLength(p: Vec3, keys: KeyMap, delta: real, s: real, c: real,
                          root2: real, speed: real)
    requires root2 > 0.0 && root2 * root2 == 2.0
    requires s * s + c * c == 1.0
    requires KeyDirection(keys) != Direction(0, 0)
    ensures var q := PlanarStep(p, keys, delta, s, c, root2, speed);
      var step := speed * ClampDelta(delta) * MoveBoost;
      (q.x - p.x) * (q.x - p.x) + (q.z - p.z) * (q.z - p.z) == step * step
  {
    var step := speed * ClampDelta(delta) * MoveBoost;
    var n := Normalize(KeyDirection(keys), root2);
    NormalizeUnit(KeyDirection(keys), root2);
    var v := Displacement(n, s, c, step);
    DisplacementLength(n, s, c, step);
    var q := PlanarStep(p, keys, delta, s, c, root2, speed);
    assert q == p.Plus(v);
    assert q.x - p.x == v.x && q.z - p.z == v.z;
  }

  /** Clamps pitch to the closed interval [-pi/2, pi/2]. */
  function ClampPitch(pitch: real): (r: real)
    ensures -HalfPi <= r <= HalfPi
    ensures -HalfPi <= pitch <= HalfPi ==> r == pitch
    ensures pitch < -HalfPi ==> r == -HalfPi
    ensures pitch > HalfPi ==> r == HalfPi
  {
    var upper := if HalfPi < pitch then HalfPi else pitch;
    if -HalfPi > upper then -HalfPi else upper
  }

  /** A pointer-locked mouse move of (movementX, movementY) pixels. */
  function Look(e: Euler, movementX: real, movementY: real): (r: Euler)
    ensures -HalfPi <= r.pitch <= HalfPi
    ensures r.yaw == e.yaw - movementX * LookSensitivity
    ensures r.pitch == ClampPitch(e.pitch - movementY * LookSensitivity)
  {
    var yaw := e.yaw - movementX * LookSensitivity;
    var pitch := e.pitch - movementY * LookSensitivity;
    Euler(ClampPitch(pitch), yaw)
  }

  /** A mouse movement in pixels. */
  datatype Movement = Movement(dx: real, dy: real)

  /** The view after a sequence of pointer-locked mouse moves. */
  function LookAll(e: Euler, moves: seq<Movement>): Euler
    decreases |moves|
  {
    if moves == [] then e
    else LookAll(Look(e, moves[0].dx, moves[0].dy), moves[1..])
  }

  function SumDx(moves: seq<Movement>): real
    decreases |moves|
  {
    if moves == [] then 0.0 else moves[0].dx + SumDx(moves[1..])
  }

  /** After any non-empty sequence of moves the pitch is in [-pi/2, pi/2],
      while the yaw has turned by the total horizontal movement, unbounded. */
  lemma {:induction false} LookAllBounds(e: Euler, moves: seq<Movement>)
    ensures moves != [] ==> -HalfPi <= LookAll(e, moves).pitch <= HalfPi
    ensures LookAll(e, moves).yaw == e.yaw - SumDx(moves) * LookSensitivity
    decreases |moves|
  {
    if moves != [] {
      var e' := Look(e, moves[0].dx, moves[0].dy);
      LookAllBounds(e', moves[1..]);
      if moves[1..] == [] {
        assert LookAll(e', moves[1..]) == e';
      }
    }
  }

  /** The horizontal position after `frames` planar moves of the same
      length with the same keys held and the same yaw. */
  function PlanarWalk(frames: nat, p: Vec3, keys: KeyMap, delta: real, s: real, c: real,
                      root2: real, speed: real): Vec3
    requires root2 > 0.0
    decreases frames
  {
    if frames == 0 then p
    else PlanarStep(PlanarWalk(frames - 1, p, keys, delta, s, c, root2, speed),
                    keys, delta, s, c, root2, speed)
  }

  /** The position after `frames` whole frames (`StepPosition`) of the same
      length with the same keys held and the same yaw. */
  function FrameWalk(frames: nat, p: Vec3, keys: KeyMap, delta: real, s: real, c: real, root2: real,
                     speed: real, eyeHeight: real, sampler: HeightSampler.Sampler): Vec3
    requires root2 > 0.0 && sampler.Valid()
    decreases frames
  {
    if frames == 0 then p
    else StepPosition(FrameWalk(frames - 1, p, keys, delta, s, c, root2, speed, eyeHeight, sampler),
                      keys, delta, s, c, root2, speed, eyeHeight, sampler)
  }

  /** The terrain only changes the height: the horizontal part of whole
      frames is the iterated planar move. */
  lemma {:induction false} FrameWalkIsPlanarWalk(frames: nat, p: Vec3, keys: KeyMap, delta: real, s: real,
                                                 c: real, root2: real, speed: real, eyeHeight: real,
                                                 sampler: HeightSampler.Sampler)
    requires root2 > 0.0 && sampler.Valid()
    ensures var q := FrameWalk(frames, p, keys, delta, s, c, root2, speed, eyeHeight, sampler);
      var r := PlanarWalk(frames, p, keys, delta, s, c, root2, speed);
      q.x == r.x && q.z == r.z
    decreases frames
  {
    if frames > 0 {
      FrameWalkIsPlanarWalk(frames - 1, p, keys, delta, s, c, root2, speed, eyeHeight, sampler);
      var a := FrameWalk(frames - 1, p, keys, delta, s, c, root2, speed, eyeHeight, sampler);
      var b := PlanarWalk(frames - 1, p, keys, delta, s, c, root2, speed);
      var v := Displacement(Normalize(KeyDirection(keys), root2), s, c, speed * ClampDelta(delta) * MoveBoost);
      assert PlanarStep(a, keys, delta, s, c, root2, speed) == a.Plus(v);
      assert PlanarStep(b, keys, delta, s, c, root2, speed) == b.Plus(v);
    }
  }

  /** Holding W alone makes one frame step of `step` along -(sin yaw, cos yaw). */
  lemma ForwardFrame(p: Vec3, keys: KeyMap, delta: real, s: real, c: real, root2: real, speed: real)
    requires root2 > 0.0
    requires Held(keys, KeyW) && !Held(keys, KeyS) && !Held(keys, KeyA) && !Held(keys, KeyD)
    ensures var q := PlanarStep(p, keys, delta, s, c, root2, speed);
      var step := speed * ClampDelta(delta) * MoveBoost;
      q.x == p.x - s * step && q.z == p.z - c * step
  {
    assert Normalize(KeyDirection(keys), root2) == Planar(0.0, -1.0);
  }

  /** Holding D alone makes one frame step of `step` along the strafe
      vector (cos yaw, -sin yaw); A alone steps the opposite way. */
  lemma StrafeFrame(p: Vec3, keys: KeyMap, delta: real, s: real, c: real, root2: real, speed: real)
    requires root2 > 0.0
    requires !Held(keys, KeyW) && !Held(keys, KeyS) && Held(keys, KeyA) != Held(keys, KeyD)
    ensures var q := PlanarStep(p, keys, delta, s, c, root2, speed);
      var step := speed * ClampDelta(delta) * MoveBoost;
      (Held(keys, KeyD) ==> q == Vec3(p.x + c * step, p.y, p.z - s * step)) &&
      (Held(keys, KeyA) ==> q == Vec3(p.x - c * step, p.y, p.z + s * step))
  {
    if Held(keys, KeyD) {
      assert Normalize(KeyDirection(keys), root2) == Planar(1.0, 0.0);
    } else {
      assert Normalize(KeyDirection(keys), root2) == Planar(-1.0, 0.0);
    }
  }

  /** Holding W alone moves the camera along -(sin yaw, cos yaw) by one
      step per frame. */
  lemma {:induction false} WalkForward(frames: nat, p: Vec3, keys: KeyMap, delta: real, s: real, c: real,
                                       root2: real, speed: real)
    requires root2 > 0.0
    requires Held(keys, KeyW) && !Held(keys, KeyS) && !Held(keys, KeyA) && !Held(keys, KeyD)
    ensures var q := PlanarWalk(frames, p, keys, delta, s, c, root2, speed);
      var step := speed * ClampDelta(delta) * MoveBoost;
      q.x == p.x - frames as real * (s * step) && q.z == p.z - frames as real * (c * step)
    decreases frames
  {
    if frames > 0 {
      var prev := PlanarWalk(frames - 1, p, keys, delta, s, c, root2, speed);
      WalkForward(frames - 1, p, keys, delta, s, c, root2, speed);
      ForwardFrame(prev, keys, delta, s, c, root2, speed);
    }
  }

  /** One second at 30 frames per second, default speed 8, W held: the
      camera moves 80 world units (8 per second times the extra factor 10)
      along -(sin yaw, cos yaw), whatever the terrain does to its height. */
  lemma OneSecondForward(p: Vec3, keys: KeyMap, s: real, c: real, root2: real, eyeHeight: real,
                          sampler: HeightSampler.Sampler)
    requires root2 > 0.0 && sampler.Valid()
    requires Held(keys, KeyW) && !Held(keys, KeyS) && !Held(keys, KeyA) && !Held(keys, KeyD)
    ensures var q := FrameWalk(30, p, keys, MaxDelta, s, c, root2, DefaultSpeed, eyeHeight, sampler);
      q.x == p.x - 80.0 * s && q.z == p.z - 80.0 * c
  {
    OneSecondPlanar(p, keys, s, c, root2);
    FrameWalkIsPlanarWalk(30, p, keys, MaxDelta, s, c, root2, DefaultSpeed, eyeHeight, sampler);
  }

  /** The planar part of `OneSecondForward`; on the unit circle the
      distance covered is exactly 80. */
  lemma OneSecondPlanar(p: Vec3, keys: KeyMap, s: real, c: real, root2: real)
    requires root2 > 0.0
    requires Held(keys, KeyW) && !Held(keys, KeyS) && !Held(keys, KeyA) && !Held(keys, KeyD)
    ensures var q := PlanarWalk(30, p, keys, MaxDelta, s, c, root2, DefaultSpeed);
      q.x == p.x - 80.0 * s && q.z == p.z - 80.0 * c &&
      (s * s + c * c == 1.0 ==> (q.x - p.x) * (q.x - p.x) + (q.z - p.z) * (q.z - p.z) == 80.0 * 80.0)
  {
    WalkForward(30, p, keys, MaxDelta, s, c, root2, DefaultSpeed);
    var q := PlanarWalk(30, p, keys, MaxDelta, s, c, root2, DefaultSpeed);
    assert DefaultSpeed * ClampDelta(MaxDelta) * MoveBoost == 8.0 / 3.0;
    assert q.x - p.x == -80.0 * s && q.z - p.z == -80.0 * c;
    assert (-80.0 * s) * (-80.0 * s) + (-80.0 * c) * (-80.0 * c) == 6400.0 * (s * s + c * c);
  }

  /** The controller: its held keys, its view angles and the camera it moves.
      The props `sampler`, `eyeHeight`, `speed` and `enablePointerLock` are
      those of the latest render. `sinOf` and `cosOf` stand for `Math.sin`
      and `Math.cos`, `root2` for `Math.sqrt(2)`. */
  class Controller {
    const camera: Camera
    var sampler: HeightSampler.Sampler
    var eyeHeight: real
    var speed: real
    var enablePointerLock: bool
    const sinOf: real -> real
    const cosOf: real -> real
    const root2: real
    var keys: KeyMap
    var euler: Euler
    var hasInit: bool

    predicate Valid()
      reads this
    {
      sampler.Valid() && root2 > 0.0 && root2 * root2 == 2.0
    }

    constructor (camera: Camera, sampler: HeightSampler.Sampler, eyeHeight: real, speed: real,
                 enablePointerLock: bool, sinOf: real -> real, cosOf: real -> real, root2: real)
      requires sampler.Valid() && root2 > 0.0 && root2 * root2 == 2.0
      ensures Valid()
      ensures this.camera == camera && this.sampler == sampler
      ensures this.eyeHeight == eyeHeight && this.speed == speed
      ensures this.enablePointerLock == enablePointerLock
      ensures this.sinOf == sinOf && this.cosOf == cosOf && this.root2 == root2
      ensures keys == map[] && euler == Euler(0.0, 0.0) && !hasInit
    {
      this.camera := camera;
      this.sampler := sampler;
      this.eyeHeight := eyeHeight;
      this.speed := speed;
      this.enablePointerLock := enablePointerLock;
      this.sinOf := sinOf;
      this.cosOf := cosOf;
      this.root2 := root2;
      keys := map[];
      euler := Euler(0.0, 0.0);
      hasInit := false;
    }

    /** A re-render with new props: the next frames and mouse moves use
        them, while the held keys, the view angles and the initialisation
        flag carry over. */
    method Rerender(sampler: HeightSampler.Sampler, eyeHeight: real, speed: real, enablePointerLock: bool)
      requires Valid() && sampler.Valid()
      modifies this`sampler, this`eyeHeight, this`speed, this`enablePointerLock
      ensures Valid()
      ensures this.sampler == sampler && this.eyeHeight == eyeHeight
      ensures this.speed == speed && this.enablePointerLock == enablePointerLock
    {
      this.sampler := sampler;
      this.eyeHeight := eyeHeight;
      this.speed := speed;
      this.enablePointerLock := enablePointerLock;
    }

    /** The initial-position effect, run on every render whose
        `initialPosition` prop differs from the last: it seeds the camera
        the first time a position is given, and never again. */
    method ApplyInitialPosition(initialPosition: Option<Vec3>)
      modifies this`euler, this`hasInit, camera`position
      ensures if initialPosition.Some? && !old(hasInit) then
          camera.position == initialPosition.value && euler == camera.rotation && hasInit
        else
          camera.position == old(camera.position) && euler == old(euler) && hasInit == old(hasInit)
    {
      if initialPosition.Some? && !hasInit {
        camera.position := initialPosition.value;
        euler := camera.rotation;
        hasInit := true;
      }
    }

    method OnKeyDown(code: string)
      modifies this`keys
      ensures keys == Press(old(keys), code)
    {
      keys := keys[code := true];
    }

    method OnKeyUp(code: string)
      modifies this`keys
      ensures keys == Release(old(keys), code)
    {
      keys := keys[code := false];
    }

    /** A mouse move; `locked` is whether the pointer is locked to the canvas.
        Without pointer-lock mode the handler is not installed at all. */
    method OnMouseMove(locked: bool, movementX: real, movementY: real)
      modifies this`euler, camera`rotation
      ensures if enablePointerLock && locked then
          euler == Look(old(euler), movementX, movementY) && camera.rotation == euler
        else
          euler == old(euler) && camera.rotation == old(camera.rotation)
      ensures -HalfPi <= old(euler.pitch) <= HalfPi ==> -HalfPi <= euler.pitch <= HalfPi
    {
      if !enablePointerLock {
        return;
      }
      if !locked {
        return;
      }
      var yaw := euler.yaw - movementX * LookSensitivity;
      var pitch := euler.pitch - movementY * LookSensitivity;
      pitch := ClampPitch(pitch);
      euler := Euler(pitch, yaw);
      camera.rotation := euler;
    }

    /** Resets the direction to zero and adds one unit per held movement key. */
    method HeldDirection() returns (d: Direction)
      ensures d == KeyDirection(keys)
    {
      var dx, dz := 0, 0;
      if Held(keys, KeyW) { dz := dz - 1; }
      if Held(keys, KeyS) { dz := dz + 1; }
      if Held(keys, KeyA) { dx := dx - 1; }
      if Held(keys, KeyD) { dx := dx + 1; }
      d := Direction(dx, dz);
    }

    /** "Clamp to ground": samples the terrain under the camera and eases
        the camera's height toward that ground plus eye height. */
    method FollowGround(clampedDelta: real)
      requires Valid()
      modifies camera`position
      ensures var p := old(camera.position);
        camera.position == p.(y := Approach(p.y, EyeLevel(sampler, p, eyeHeight), SmoothingFactor(clampedDelta)))
    {
      var groundY := HeightSampler.Sample(sampler, camera.position.x, camera.position.z);
      var desiredY := groundY + eyeHeight;
      camera.position := camera.position.(y := camera.position.y + (desiredY - camera.position.y) * SmoothingFactor(clampedDelta));
    }

    /** Without pointer-lock mode the view angles are re-read from the camera. */
    method SyncOrientation()
      modifies this`euler
      ensures euler == if enablePointerLock then old(euler) else camera.rotation
    {
      if !enablePointerLock {
        euler := camera.rotation;
      }
    }

    /** The planar part of a frame: the held direction, normalised, turned by
        the yaw and scaled by speed, clamped frame time and the boost. */
    method MovePlanar(delta: real, clampedDelta: real)
      requires Valid() && clampedDelta == ClampDelta(delta)
      modifies camera`position
      ensures camera.position == PlanarStep(old(camera.position), keys, delta,
                                            sinOf(euler.yaw), cosOf(euler.yaw), root2, speed)
    {
      var keyDirection := HeldDirection();
      var direction := Normalize(keyDirection, root2);
      var yaw := euler.yaw;
      var velocity := Displacement(direction, sinOf(yaw), cosOf(yaw), speed * clampedDelta * MoveBoost);
      var p := camera.position;
      var q := p.Plus(velocity);
      assert q == PlanarStep(p, keys, delta, sinOf(yaw), cosOf(yaw), root2, speed);
      camera.position := q;
    }

    /** One rendered frame of `delta` seconds; returns what `onPosition` receives. */
    method Frame(delta: real) returns (reported: Vec3)
      requires Valid()
      modifies this`euler, camera`position
      ensures euler == if enablePointerLock then old(euler) else old(camera.rotation)
      ensures camera.position == StepPosition(old(camera.position), keys, delta,
                                              sinOf(euler.yaw), cosOf(euler.yaw), root2,
                                              speed, eyeHeight, sampler)
      ensures reported == camera.position
    {
      var clampedDelta := ClampDelta(delta);
      SyncOrientation();
      MovePlanar(delta, clampedDelta);
      FollowGround(clampedDelta);
      reported := camera.position;
    }
  }

  /** A controller mounted before its initial position is known: the first
      position that arrives seeds the camera, and a later one is ignored. */
  method InitialPositionOnce(camera: Camera, sampler: HeightSampler.Sampler, sinOf: real -> real,
                             cosOf: real -> real, root2: real, first: Vec3, later: Vec3)
    returns (seeded: Vec3, kept: Vec3)
    requires sampler.Valid() && root2 > 0.0 && root2 * root2 == 2.0
    modifies camera
    ensures seeded == first && kept == first
  {
    var controller := new Controller(camera, sampler, 1.7, DefaultSpeed, false, sinOf, cosOf, root2);
    controller.ApplyInitialPosition(None);
    controller.ApplyInitialPosition(Some(first));
    seeded := camera.position;
    controller.ApplyInitialPosition(Some(later));
    kept := camera.position;
  }
}

=== FILE: height_sampler.dfy ===
/** The height sampler built from a decoded heightmap raster.

    A world point (x, z) on the terrain plane is mapped to texture
    coordinates (u, v), with Z mirrored, then to a pixel clamped into the
    raster; the pixel's RGB average, scaled to [0, 1], is turned into a world
    height by `scale` and `bias`. When there is no image or no 2-D drawing
    context the sampler is the constant zero. */
module HeightSampler {
  import opened Scene

  /** One channel of an RGBA byte buffer. */
  type byte = b: int | 0 <= b < 256

  /** Canvas size used when the image reports no width or height. */
  const DefaultCanvasSize: nat := 1024

  /** What the loaded texture exposes of its image: its intrinsic size,
      0 when the image does not report one. */
  datatype Image = Image(width: nat, height: nat)

  /** The canvas the image is drawn onto, with the RGBA bytes read back from it. */
  datatype Raster = Raster(width: nat, height: nat, data: seq<byte>)
  {
    /** A canvas has at least one pixel and four bytes per pixel. */
    predicate WellFormed()
    {
      width >= 1 && height >= 1 && |data| == 4 * width * height
    }
  }

  /** The sampler returned by `createHeightSampler`: either the constant-zero
      fallback or a lookup in a raster laid over a `planeWidth` x `planeHeight`
      rectangle centred on the origin. */
  datatype Sampler =
    | Flat
    | Sampled(raster: Raster, planeWidth: real, planeHeight: real, scale: real, bias: real)
  {
    predicate Valid()
    {
      Sampled? ==> raster.WellFormed() && planeWidth > 0.0 && planeHeight > 0.0
    }
  }

  /** `image.width || 1024`: a missing (zero) dimension falls back to 1024. */
  function CanvasSize(d: nat): (n: nat)
    ensures n >= 1
    ensures d != 0 ==> n == d
    ensures d == 0 ==> n == DefaultCanvasSize
  {
    if d == 0 then DefaultCanvasSize else d
  }

  /** Builds the sampler. `hasContext` is whether a 2-D context could be
      obtained; `pixels` is what reading the whole canvas back produced. */
  function CreateHeightSampler(image: Option<Image>, hasContext: bool, pixels: seq<byte>,
                               planeWidth: real, planeHeight: real,
                               scale: real, bias: real): (s: Sampler)
    requires planeWidth > 0.0 && planeHeight > 0.0
    requires image.Some? && hasContext ==>
      |pixels| == 4 * CanvasSize(image.value.width) * CanvasSize(image.value.height)
    ensures s.Valid()
    ensures s.Flat? <==> image.None? || !hasContext
    ensures s.Sampled? ==>
      s.raster == Raster(CanvasSize(image.value.width), CanvasSize(image.value.height), pixels) &&
      s.planeWidth == planeWidth && s.planeHeight == planeHeight &&
      s.scale == scale && s.bias == bias
  {
    if image.None? then Flat
    else if !hasContext then Flat
    else
      var w := CanvasSize(image.value.width);
      var h := CanvasSize(image.value.height);
      Sampled(Raster(w, h, pixels), planeWidth, planeHeight, scale, bias)
  }

  /** `min(n - 1, max(0, floor(t * n)))`: the pixel column (or row) for a
      texture coordinate `t`, clamped into the raster. */
  function ToPixel(t: real, n: nat): (p: nat)
    requires n >= 1
    ensures p < n
    ensures t <= 0.0 ==> p == 0
    ensures t >= 1.0 ==> p == n - 1
    ensures 0.0 <= t < 1.0 ==> p as real <= t * (n as real) < p as real + 1.0
  {
    var f := (t * n as real).Floor;
    FloorWindow(t, n, f);
    if f < 0 then 0 else if f > n - 1 then n - 1 else f
  }

  /** Where `floor(t * n)` lands relative to the raster's `n` cells. */
  lemma FloorWindow(t: real, n: nat, f: int)
    requires n >= 1 && f == (t * n as real).Floor
    ensures t <= 0.0 ==> f <= 0
    ensures t >= 1.0 ==> f >= n
    ensures 0.0 <= t < 1.0 ==> 0 <= f <= n - 1
    ensures f as real <= t * (n as real) < f as real + 1.0
  {
    var m := n as real;
    var x := t * m;
    if t <= 0.0 {
      ProductNonNegative(-t, m);
      assert -t * m == -x;
    } else if t >= 1.0 {
      ProductNonNegative(t - 1.0, m);
      assert (t - 1.0) * m == x - m;
    } else {
      ProductNonNegative(t, m);
      ProductNonNegative(1.0 - t, m);
      assert (1.0 - t) * m == m - x;
    }
  }

  /** `u = x / PLANE_WIDTH + 0.5`. */
  function U(s: Sampler, x: real): (u: real)
    requires s.Valid() && s.Sampled?
    ensures (u - 0.5) * s.planeWidth == x
  {
    x / s.planeWidth + 0.5
  }

  /** `v = 0.5 - z / PLANE_HEIGHT`: Z is mirrored. */
  function V(s: Sampler, z: real): (v: real)
    requires s.Valid() && s.Sampled?
    ensures (0.5 - v) * s.planeHeight == z
  {
    0.5 - z / s.planeHeight
  }

  /** The pixel column of world x. */
  function PixelX(s: Sampler, x: real): (px: nat)
    requires s.Valid() && s.Sampled?
    ensures px <= s.raster.width - 1
  {
    ToPixel(U(s, x), s.raster.width)
  }

  /** The pixel row of world z. */
  function PixelY(s: Sampler, z: real): (py: nat)
    requires s.Valid() && s.Sampled?
    ensures py <= s.raster.height - 1
  {
    ToPixel(V(s, z), s.raster.height)
  }

  /** `(py * width + px) * 4`: the offset of the pixel's red byte; its green
      and blue bytes follow, all inside the buffer. */
  function PixelIndex(r: Raster, px: nat, py: nat): (idx: nat)
    requires r.WellFormed() && px < r.width && py < r.height
    ensures idx % 4 == 0
    ensures idx + 3 < |r.data|
  {
    RowMajorInRange(r.width, r.height, px, py);
    (py * r.width + px) * 4
  }

  /** A row-major cell index lies below the cell count. */
  lemma RowMajorInRange(w: nat, h: nat, px: nat, py: nat)
    requires px < w && py < h
    ensures py * w + px < w * h
  {
    assert py * w <= (h - 1) * w by {
      assert (h - 1) * w - py * w == (h - 1 - py) * w;
    }
    assert (h - 1) * w + w == h * w;
  }

  /** The simple average of R, G and B, scaled from bytes to [0, 1]. */
  function Gray(r: byte, g: byte, b: byte): (gray: real)
    ensures 0.0 <= gray <= 1.0
    ensures gray == 0.0 <==> r == 0 && g == 0 && b == 0
    ensures gray == 1.0 <==> r == 255 && g == 255 && b == 255
  {
    (r + g + b) as real / 3.0 / 255.0
  }

  /** The sampler applied to the world point (x, z). */
  function Sample(s: Sampler, x: real, z: real): (y: real)
    requires s.Valid()
    ensures s.Flat? ==> y == 0.0
    ensures s.Sampled? && s.scale >= 0.0 ==> s.bias <= y <= s.scale + s.bias
    ensures s.Sampled? && s.scale <= 0.0 ==> s.scale + s.bias <= y <= s.bias
  {
    match s
    case Flat => 0.0
    case Sampled(raster, _, _, scale, bias) =>
      var idx := PixelIndex(raster, PixelX(s, x), PixelY(s, z));
      var gray := Gray(raster.data[idx], raster.data[idx + 1], raster.data[idx + 2]);
      var y := gray * scale + bias;
      ScaledBetween(gray, scale, bias, y);
      y
  }

  /** A fraction in [0, 1] of `scale`, offset by `bias`, lies between `bias`
      and `scale + bias`. */
  lemma ScaledBetween(g: real, scale: real, bias: real, y: real)
    requires 0.0 <= g <= 1.0 && y == g * scale + bias
    ensures scale >= 0.0 ==> bias <= y <= scale + bias
    ensures scale <= 0.0 ==> scale + bias <= y <= bias
  {
    var m := g * scale;
    assert y - bias == m;
    if scale >= 0.0 {
      ProductNonNegative(g, scale);
      ProductNonNegative(1.0 - g, scale);
      assert scale - m == (1.0 - g) * scale;
    } else {
      ProductNonNegative(g, -scale);
      ProductNonNegative(1.0 - g, -scale);
      assert g * -scale == -m;
      assert (1.0 - g) * -scale == m - scale;
    }
  }

  /** Nearest-pixel lookup: two points that fall in the same pixel read the
      same height, so the height field is constant over each pixel's cell. */
  lemma SameCellSameHeight(s: Sampler, x1: real, z1: real, x2: real, z2: real)
    requires s.Valid() && s.Sampled?
    requires PixelX(s, x1) == PixelX(s, x2) && PixelY(s, z1) == PixelY(s, z2)
    ensures Sample(s, x1, z1) == Sample(s, x2, z2)
  {
  }

  /** A missing image or a missing 2-D context gives a sampler that is zero everywhere. */
  lemma FallbackIsZero(image: Option<Image>, hasContext: bool, pixels: seq<byte>,
                       planeWidth: real, planeHeight: real, scale: real, bias: real,
                       x: real, z: real)
    requires planeWidth > 0.0 && planeHeight > 0.0
    requires image.None? || !hasContext
    ensures Sample(CreateHeightSampler(image, hasContext, pixels, planeWidth, planeHeight, scale, bias), x, z) == 0.0
  {
  }

  /** Points at or beyond an edge of the plane read the edge pixel. */
  lemma ClampingLaw(s: Sampler, x: real, z: real)
    requires s.Valid() && s.Sampled?
    ensures x >= s.planeWidth / 2.0 ==> PixelX(s, x) == s.raster.width - 1
    ensures x <= -s.planeWidth / 2.0 ==> PixelX(s, x) == 0
    ensures z <= -s.planeHeight / 2.0 ==> PixelY(s, z) == s.raster.height - 1
    ensures z >= s.planeHeight / 2.0 ==> PixelY(s, z) == 0
  {
    HalfExtentEdges(x, s.planeWidth);
    HalfExtentEdges(z, s.planeHeight);
    if x >= s.planeWidth / 2.0 {
      assert U(s, x) >= 1.0;
    }
    if x <= -s.planeWidth / 2.0 {
      assert U(s, x) <= 0.0;
    }
    if z <= -s.planeHeight / 2.0 {
      assert V(s, z) >= 1.0;
    }
    if z >= s.planeHeight / 2.0 {
      assert V(s, z) <= 0.0;
    }
  }

  /** Beyond half the extent on either side, `c / extent` passes one half. */
  lemma HalfExtentEdges(c: real, extent: real)
    requires extent > 0.0
    ensures c >= extent / 2.0 ==> c / extent >= 0.5
    ensures c <= -extent / 2.0 ==> c / extent <= -0.5
  {
    DivideMonotone(c, extent / 2.0, extent);
    DivideMonotone(-extent / 2.0, c, extent);
  }

  /** Dividing by a positive number keeps order. */
  lemma DivideMonotone(a: real, b: real, d: real)
    requires d > 0.0
    ensures a <= b ==> a / d <= b / d
    ensures a >= b ==> a / d >= b / d
  {
    assert b / d - a / d == (b - a) / d;
  }

  /** Outside the plane, the sampler returns the height at the nearest edge. */
  lemma SampleClampsToEdge(s: Sampler, x: real, z: real)
    requires s.Valid() && s.Sampled?
    ensures x >= s.planeWidth / 2.0 ==> Sample(s, x, z) == Sample(s, s.planeWidth / 2.0, z)
    ensures x <= -s.planeWidth / 2.0 ==> Sample(s, x, z) == Sample(s, -s.planeWidth / 2.0, z)
    ensures z >= s.planeHeight / 2.0 ==> Sample(s, x, z) == Sample(s, x, s.planeHeight / 2.0)
    ensures z <= -s.planeHeight / 2.0 ==> Sample(s, x, z) == Sample(s, x, -s.planeHeight / 2.0)
  {
    var w, h := s.planeWidth / 2.0, s.planeHeight / 2.0;
    ClampingLaw(s, x, z);
    if x >= w {
      ClampingLaw(s, w, z);
      SameCellSameHeight(s, x, z, w, z);
    }
    if x <= -w {
      ClampingLaw(s, -w, z);
      SameCellSameHeight(s, x, z, -w, z);
    }
    if z >= h {
      ClampingLaw(s, x, h);
      SameCellSameHeight(s, x, z, x, h);
    }
    if z <= -h {
      ClampingLaw(s, x, -h);
      SameCellSameHeight(s, x, z, x, -h);
    }
  }

  /** `floor(t * n)` clamped never decreases as `t` grows. */
  lemma ToPixelMonotone(t1: real, t2: real, n: nat)
    requires n >= 1 && t1 <= t2
    ensures ToPixel(t1, n) <= ToPixel(t2, n)
  {
    ScaleMonotone(t1, t2, n as real);
    FloorMonotone(t1 * n as real, t2 * n as real);
  }

  /** `floor` keeps order. */
  lemma FloorMonotone(a: real, b: real)
    requires a <= b
    ensures a.Floor <= b.Floor
  {
    assert a.Floor as real <= a;
    assert b < b.Floor as real + 1.0;
  }

  /** The column never decreases as x grows; the row never increases as z
      grows, because Z is mirrored. */
  lemma PixelMonotone(s: Sampler, a: real, b: real)
    requires s.Valid() && s.Sampled? && a <= b
    ensures PixelX(s, a) <= PixelX(s, b)
    ensures PixelY(s, a) >= PixelY(s, b)
  {
    DivideMonotone(a, b, s.planeWidth);
    DivideMonotone(a, b, s.planeHeight);
    ToPixelMonotone(U(s, a), U(s, b), s.raster.width);
    ToPixelMonotone(V(s, b), V(s, a), s.raster.height);
  }

  /** A 2 x 2 raster whose grey levels are 0, 255 (top row) and 128, 64
      (bottom row), laid over a 2 x 2 plane with scale 10 and bias -5. */
  function ExampleSampler(): (s: Sampler)
    ensures s.Valid() && s.Sampled?
  {
    Sampled(Raster(2, 2, [0, 0, 0, 255, 255, 255, 255, 255,
                          128, 128, 128, 255, 64, 64, 64, 255]),
            2.0, 2.0, 10.0, -5.0)
  }

  /** Because Z is mirrored, (-0.9, -0.9) reads the bottom-left pixel (grey
      128) and (0.9, 0.9) the top-right pixel (grey 255), not the top-left and
      bottom-right ones an unmirrored lookup would read. */
  lemma MirroredExample()
    ensures PixelX(ExampleSampler(), -0.9) == 0 && PixelY(ExampleSampler(), -0.9) == 1
    ensures PixelX(ExampleSampler(), 0.9) == 1 && PixelY(ExampleSampler(), 0.9) == 0
    ensures Sample(ExampleSampler(), -0.9, -0.9) == 128.0 / 255.0 * 10.0 - 5.0
    ensures Sample(ExampleSampler(), 0.9, 0.9) == 5.0
  {
    var s := ExampleSampler();
    assert U(s, -0.9) == 0.05 && (0.05 * 2.0).Floor == 0;
    assert V(s, -0.9) == 0.95 && (0.95 * 2.0).Floor == 1;
    assert U(s, 0.9) == 0.95;
    assert V(s, 0.9) == 0.05;
    assert PixelIndex(s.raster, 0, 1) == 8;
    assert PixelIndex(s.raster, 1, 0) == 4;
  }

  /** A one-pixel raster of colour (r, g, b) over a 1 x 1 plane, with scale 3
      and bias 0. */
  function OnePixelSampler(r: byte, g: byte, b: byte): (s: Sampler)
    ensures s.Valid() && s.Sampled? && s.raster.data[..3] == [r, g, b]
  {
    Sampled(Raster(1, 1, [r, g, b, 255]), 1.0, 1.0, 3.0, 0.0)
  }

  /** The grey level averages the three channels rather than reading one:
      a pure red, a pure green and a pure blue pixel each read a third of
      full scale, at every point of the plane. */
  lemma ChannelAverageExample(x: real, z: real)
    ensures Sample(OnePixelSampler(255, 0, 0), x, z) == 1.0
    ensures Sample(OnePixelSampler(0, 255, 0), x, z) == 1.0
    ensures Sample(OnePixelSampler(0, 0, 255), x, z) == 1.0
  {
    var red, green, blue := OnePixelSampler(255, 0, 0), OnePixelSampler(0, 255, 0), OnePixelSampler(0, 0, 255);
    assert PixelX(red, x) == 0 && PixelY(red, z) == 0;
    assert PixelX(green, x) == 0 && PixelY(green, z) == 0;
    assert PixelX(blue, x) == 0 && PixelY(blue, z) == 0;
  }
}

=== FILE: key_state.dfy ===
/** The record of held keys kept by both movement controllers. A key code
    that was never seen reads as "not held", like an absent property. */
module KeyState {

  type KeyMap = map<string, bool>

  const KeyW: string := "KeyW"
  const KeyS: string := "KeyS"
  const KeyA: string := "KeyA"
  const KeyD: string := "KeyD"

  /** Truthiness of `keys[code]`: an absent entry is `undefined`, hence false. */
  predicate Held(keys: KeyMap, code: string)
  {
    code in keys && keys[code]
  }

  /** The four codes that drive movement. */
  predicate IsMovementKey(code: string)
  {
    code == KeyW || code == KeyS || code == KeyA || code == KeyD
  }

  /** `keydown`: `keys[code] = true`. */
  function Press(keys: KeyMap, code: string): (k: KeyMap)
    ensures Held(k, code)
    ensures k.Keys == keys.Keys + {code}
    ensures forall c :: c != code ==> (c in k <==> c in keys) && (c in keys ==> k[c] == keys[c])
  {
    keys[code := true]
  }

  /** `keyup`: `keys[code] = false`. */
  function Release(keys: KeyMap, code: string): (k: KeyMap)
    ensures !Held(k, code) && code in k
    ensures k.Keys == keys.Keys + {code}
    ensures forall c :: c != code ==> (c in k <==> c in keys) && (c in keys ==> k[c] == keys[c])
  {
    keys[code := false]
  }

  /** The local movement direction before normalisation: `x` strafes
      (A = -1, D = +1), `z` moves along the view (W = -1, S = +1). */
  datatype Direction = Direction(x: int, z: int)

  /** The direction the held keys ask for. W and S cancel, as do A and D. */
  function KeyDirection(keys: KeyMap): (d: Direction)
    ensures -1 <= d.x <= 1 && -1 <= d.z <= 1
    ensures d.z == -1 <==> Held(keys, KeyW) && !Held(keys, KeyS)
    ensures d.z == 1 <==> Held(keys, KeyS) && !Held(keys, KeyW)
    ensures d.x == -1 <==> Held(keys, KeyA) && !Held(keys, KeyD)
    ensures d.x == 1 <==> Held(keys, KeyD) && !Held(keys, KeyA)
  {
    var z := (if Held(keys, KeyW) then -1 else 0) + (if Held(keys, KeyS) then 1 else 0);
    var x := (if Held(keys, KeyA) then -1 else 0) + (if Held(keys, KeyD) then 1 else 0);
    Direction(x, z)
  }

  /** A key other than W, A, S and D never changes the direction. */
  lemma UnmappedKeysIgnored(keys: KeyMap, code: string, down: bool)
    requires !IsMovementKey(code)
    ensures KeyDirection(keys[code := down]) == KeyDirection(keys)
  {
  }
}

=== FILE: scene.dfy ===
/** Values and objects shared by the controllers: the optional-value wrapper,
    3-vectors, the Euler look angles and the one scene camera that every
    controller moves. */
module Scene {

  datatype Option<T> = None | Some(value: T)

  /** A position in world space; `y` is up. */
  datatype Vec3 = Vec3(x: real, y: real, z: real)
  {
    function Plus(v: Vec3): (r: Vec3)
      ensures r.x - x == v.x && r.y - y == v.y && r.z - z == v.z
    {
      Vec3(x + v.x, y + v.y, z + v.z)
    }
  }

  /** The "YXZ" Euler angles of a first-person view: `pitch` is the rotation
      about X, `yaw` the rotation about Y. */
  datatype Euler = Euler(pitch: real, yaw: real)

  /** The scene camera: its position and its orientation, the latter read
      back as Euler angles. Several controllers hold the same camera. */
  class Camera {
    var position: Vec3
    var rotation: Euler

    constructor (position: Vec3, rotation: Euler)
      ensures this.position == position && this.rotation == rotation
    {
      this.position := position;
      this.rotation := rotation;
    }
  }

  /** Longest time step a frame integrates (`1/30` s). */
  const MaxDelta: real := 1.0 / 30.0

  /** `Math.min(delta, 1/30)`. */
  function ClampDelta(delta: real): (cd: real)
    ensures cd <= MaxDelta
    ensures delta <= MaxDelta ==> cd == delta
    ensures delta >= MaxDelta ==> cd == MaxDelta
  {
    if delta < MaxDelta then delta else MaxDelta
  }

  /** The product of two non-negative reals is non-negative, and positive
      when both are. */
  lemma ProductNonNegative(a: real, b: real)
    requires a >= 0.0 && b >= 0.0
    ensures a * b >= 0.0
    ensures a > 0.0 && b > 0.0 ==> a * b > 0.0
  {
  }

  /** Multiplying by a non-negative factor keeps order. */
  lemma ScaleMonotone(a: real, b: real, n: real)
    requires n >= 0.0
    ensures a <= b ==> a * n <= b * n && n * a <= n * b
    ensures a >= b ==> a * n >= b * n && n * a >= n * b
  {
    if a <= b { assert b * n - a * n == (b - a) * n; }
    if a >= b { assert a * n - b * n == (a - b) * n; }
    assert a * n == n * a && b * n == n * b;
  }
}

=== FILE: simple_movement.dfy ===
/** The simple movement controller: W, A, S and D move the camera along the
    world axes by `speed` per second, with no view rotation, no
    normalisation and no ground following. */
module SimpleMovement {
  import opened Scene
  import opened KeyState

  /** Units per second when no speed is given. */
  const DefaultSpeed: real := 50.0

  /** The camera position after one frame from `p`: each held movement key
      adds or removes `speed * clampedDelta` on its world axis. */
  function WorldStep(p: Vec3, keys: KeyMap, speed: real, delta: real): (q: Vec3)
    ensures q.y == p.y
    ensures !Held(keys, KeyW) && !Held(keys, KeyS) && !Held(keys, KeyA) && !Held(keys, KeyD) ==> q == p
  {
    var moveSpeed := speed * ClampDelta(delta);
    var d := KeyDirection(keys);
    Vec3(p.x + d.x as real * moveSpeed, p.y, p.z + d.z as real * moveSpeed)
  }

  /** A frame moves each axis by at most `speed / 30`, whatever the frame time. */
  lemma StepBounded(p: Vec3, keys: KeyMap, speed: real, delta: real)
    requires speed >= 0.0 && delta >= 0.0
    ensures var q := WorldStep(p, keys, speed, delta);
      -speed * MaxDelta <= q.x - p.x <= speed * MaxDelta &&
      -speed * MaxDelta <= q.z - p.z <= speed * MaxDelta
  {
    var cd := ClampDelta(delta);
    var m := speed * cd;
    assert 0.0 <= cd <= MaxDelta;
    ScaleMonotone(cd, MaxDelta, speed);
    assert m <= speed * MaxDelta;
    assert 0.0 <= m;
    var d := KeyDirection(keys);
    assert d.x as real * m == if d.x == 0 then 0.0 else if d.x == 1 then m else -m;
    assert d.z as real * m == if d.z == 0 then 0.0 else if d.z == 1 then m else -m;
  }

  /** At the default speed, a frame of 1/30 s or longer with W alone held
      moves the camera 50/30 units toward -z and nothing else. */
  lemma DefaultSpeedFrame(p: Vec3, keys: KeyMap, delta: real)
    requires delta >= MaxDelta
    requires Held(keys, KeyW) && !Held(keys, KeyS) && !Held(keys, KeyA) && !Held(keys, KeyD)
    ensures WorldStep(p, keys, DefaultSpeed, delta) == p.(z := p.z - 50.0 / 30.0)
  {
    assert KeyDirection(keys) == Direction(0, -1);
  }

  /** W with S held together leave z alone; A with D leave x alone. */
  lemma OppositeKeysCancel(p: Vec3, keys: KeyMap, speed: real, delta: real)
    ensures Held(keys, KeyW) && Held(keys, KeyS) ==> WorldStep(p, keys, speed, delta).z == p.z
    ensures Held(keys, KeyA) && Held(keys, KeyD) ==> WorldStep(p, keys, speed, delta).x == p.x
  {
  }

  /** Diagonal movement is not normalised: W with D moves the full step on
      both axes, so the squared distance is twice that of a single key. */
  lemma DiagonalNotNormalized(p: Vec3, keys: KeyMap, speed: real, delta: real)
    requires Held(keys, KeyW) && Held(keys, KeyD) && !Held(keys, KeyS) && !Held(keys, KeyA)
    ensures var q := WorldStep(p, keys, speed, delta);
      var m := speed * ClampDelta(delta);
      q.x - p.x == m && q.z - p.z == -m &&
      (q.x - p.x) * (q.x - p.x) + (q.z - p.z) * (q.z - p.z) == 2.0 * m * m
  {
    var d := KeyDirection(keys);
    assert d == Direction(1, -1);
  }

  /** The controller: the held keys and the camera it moves. */
  class Controller {
    const camera: Camera
    const speed: real
    var keys: KeyMap

    constructor (camera: Camera, speed: real)
      ensures this.camera == camera && this.speed == speed && keys == map[]
    {
      this.camera := camera;
      this.speed := speed;
      keys := map[];
    }

    method OnKeyDown(code: string)
      modifies this`keys
      ensures keys == Press(old(keys), code)
    {
      keys := keys[code := true];
    }

    method OnKeyUp(code: string)
      modifies this`keys
      ensures keys == Release(old(keys), code)
    {
      keys := keys[code := false];
    }

    /** One rendered frame of `delta` seconds: one axis update per held key. */
    method Frame(delta: real)
      modifies camera`position
      ensures camera.position == WorldStep(old(camera.position), keys, speed, delta)
    {
      var clampedDelta := ClampDelta(delta);
      var moveSpeed := speed * clampedDelta;
      var p := camera.position;
      if Held(keys, KeyW) { p := p.(z := p.z - moveSpeed); }
      if Held(keys, KeyS) { p := p.(z := p.z + moveSpeed); }
      if Held(keys, KeyA) { p := p.(x := p.x - moveSpeed); }
      if Held(keys, KeyD) { p := p.(x := p.x + moveSpeed); }
      camera.position := p;
    }
  }
}

=== FILE: terrain_colors.dfy ===
/** Vertex colours of the heightmap terrain. Every vertex's height is
    normalised against the displacement scale and coloured by band: green
    grass low down, grey rock in the middle, white snow at the top. */
module TerrainColors {

  /** The displacement scale used when none is given. */
  const DefaultDisplacement: real := 140.0

  /** The side of the square plane when none is given. */
  const DefaultSize: real := 400.0

  /** Upper bounds (exclusive) of the grass and rock bands, in normalised height. */
  const GrassTop: real := 0.3
  const RockTop: real := 0.7

  datatype Rgb = Rgb(r: real, g: real, b: real)
  {
    /** Channel 0 is red, 1 green, 2 blue, as laid out in the colour buffer. */
    function Channel(k: nat): real
      requires k < 3
    {
      if k == 0 then r else if k == 1 then g else b
    }

    predicate IsGrey()
    {
      r == g && g == b
    }
  }

  datatype Band = Grass | Rock | Snow

  /** `(y + displacement / 2) / displacement`: the displaced range
      [-displacement/2, displacement/2] maps onto [0, 1]. */
  function NormalizedHeight(y: real, displacement: real): real
    requires displacement != 0.0
  {
    (y + displacement / 2.0) / displacement
  }

  /** Normalisation is the affine map taking -displacement/2 to 0 and
      displacement/2 to 1: a rise of `d` in height is a rise of
      `d / displacement` in normalised height, and it can be undone. */
  lemma NormalizedHeightAffine(y1: real, y2: real, displacement: real)
    requires displacement != 0.0
    ensures NormalizedHeight(-displacement / 2.0, displacement) == 0.0
    ensures NormalizedHeight(displacement / 2.0, displacement) == 1.0
    ensures NormalizedHeight(y2, displacement) - NormalizedHeight(y1, displacement) == (y2 - y1) / displacement
    ensures NormalizedHeight(y1, displacement) * displacement - displacement / 2.0 == y1
  {
    var h1, h2 := NormalizedHeight(y1, displacement), NormalizedHeight(y2, displacement);
    assert h2 - h1 == ((y2 + displacement / 2.0) - (y1 + displacement / 2.0)) / displacement;
  }

  /** With a positive scale, a height inside the displaced range normalises
      into [0, 1], and a height below (above) it normalises below 0 (above 1). */
  lemma NormalizedRange(y: real, displacement: real)
    requires displacement > 0.0
    ensures -displacement / 2.0 <= y <= displacement / 2.0 <==>
            0.0 <= NormalizedHeight(y, displacement) <= 1.0
    ensures y < -displacement / 2.0 <==> NormalizedHeight(y, displacement) < 0.0
    ensures y == -displacement / 2.0 ==> NormalizedHeight(y, displacement) == 0.0
    ensures y == displacement / 2.0 ==> NormalizedHeight(y, displacement) == 1.0
  {
    var h := NormalizedHeight(y, displacement);
    assert h * displacement == y + displacement / 2.0;
    if h < 0.0 {
      assert h * displacement < 0.0 * displacement;
    }
    if h > 1.0 {
      assert (h - 1.0) * displacement > 0.0;
    }
    if 0.0 <= h {
      assert h * displacement >= 0.0;
    }
    if h <= 1.0 {
      assert (1.0 - h) * displacement >= 0.0;
    }
  }

  /** The band a normalised height falls in. */
  function BandOf(h: real): Band
  {
    if h < GrassTop then Grass else if h < RockTop then Rock else Snow
  }

  /** The colour ramp over normalised height. */
  function Ramp(h: real): (c: Rgb)
    ensures BandOf(h) == Grass <==> !c.IsGrey()
    ensures BandOf(h) == Grass ==> c.g - c.r == 0.17 && c.r - c.b == 0.08
    ensures BandOf(h) == Grass && 0.0 <= h ==> 0.37 <= c.r < 0.47 && 0.54 <= c.g < 0.64 && 0.29 <= c.b < 0.39
    ensures BandOf(h) == Rock ==> 0.4 <= c.r < 0.44
    ensures BandOf(h) == Snow ==> 0.5 <= c.r
    ensures BandOf(h) == Snow && h <= 1.0 ==> c.r <= 1.0
    ensures h == 1.0 ==> c == Rgb(1.0, 1.0, 1.0)
  {
    if h < GrassTop then
      var t := h / 0.3;
      Rgb(0.37 + t * 0.1, 0.54 + t * 0.1, 0.29 + t * 0.1)
    else if h < RockTop then
      var grey := 0.4 + (h - 0.3) * 0.1;
      Rgb(grey, grey, grey)
    else
      var t := (h - 0.7) / 0.3;
      var grey := 0.5 + t * 0.5;
      Rgb(grey, grey, grey)
  }

  /** Outside [0, 1] the ramp leaves its documented ranges: below 0 the
      grass is darker than 0.37 red and 0.29 blue, above 1 the snow is
      brighter than 1. */
  lemma RampBeyondUnit(h: real)
    ensures h < 0.0 ==> Ramp(h).r < 0.37 && Ramp(h).g < 0.54 && Ramp(h).b < 0.29
    ensures h > 1.0 ==> Ramp(h).r > 1.0 && Ramp(h).IsGrey()
  {
    if h < 0.0 {
      assert h / 0.3 < 0.0;
    } else if h > 1.0 {
      assert (h - 0.7) / 0.3 > 1.0;
    }
  }

  /** The buffer's second coordinate is the flat plane's in-plane
      coordinate, which spans [-size/2, size/2]. With the default plane of
      400 and displacement of 140 the plane's edges normalise to about -0.93
      and 1.93, so the edge colours fall outside the ramp's ranges, the
      near edge with a negative blue channel. */
  lemma DefaultPlaneEdges()
    ensures NormalizedHeight(-DefaultSize / 2.0, DefaultDisplacement) < 0.0
    ensures Ramp(NormalizedHeight(-DefaultSize / 2.0, DefaultDisplacement)).b < 0.0
    ensures NormalizedHeight(DefaultSize / 2.0, DefaultDisplacement) > 1.0
    ensures Ramp(NormalizedHeight(DefaultSize / 2.0, DefaultDisplacement)).r > 1.0
  {
    assert NormalizedHeight(-DefaultSize / 2.0, DefaultDisplacement) == -13.0 / 14.0;
    assert NormalizedHeight(DefaultSize / 2.0, DefaultDisplacement) == 27.0 / 14.0;
  }

  /** The ramp is piecewise linear: dark green (0.37, 0.54, 0.29) at h = 0,
      grey 0.4 at the grass line, grey 0.5 at the snow line and white at
      h = 1; within a band every channel rises by a fixed multiple of the
      height difference, 1/3 for grass, 1/10 for rock and 5/3 for snow. */
  lemma RampLinear(h1: real, h2: real)
    ensures Ramp(0.0) == Rgb(0.37, 0.54, 0.29)
    ensures Ramp(GrassTop) == Rgb(0.4, 0.4, 0.4)
    ensures Ramp(RockTop) == Rgb(0.5, 0.5, 0.5)
    ensures BandOf(h1) == Grass && BandOf(h2) == Grass ==>
      Ramp(h2).r - Ramp(h1).r == (h2 - h1) / 3.0 &&
      Ramp(h2).g - Ramp(h1).g == (h2 - h1) / 3.0 &&
      Ramp(h2).b - Ramp(h1).b == (h2 - h1) / 3.0
    ensures BandOf(h1) == Rock && BandOf(h2) == Rock ==>
      Ramp(h2).r - Ramp(h1).r == (h2 - h1) / 10.0
    ensures BandOf(h1) == Snow && BandOf(h2) == Snow ==>
      Ramp(h2).r - Ramp(h1).r == (h2 - h1) * 5.0 / 3.0
  {
  }

  /** Above the grass line the grey only brightens with height: rock is
      never brighter than higher rock, and snow is brighter than any rock. */
  lemma GreyBrightensWithHeight(h1: real, h2: real)
    requires GrassTop <= h1 <= h2
    ensures Ramp(h1).r <= Ramp(h2).r
  {
    if BandOf(h1) == BandOf(h2) {
      if BandOf(h1) == Rock {
        assert (h2 - 0.3) * 0.1 - (h1 - 0.3) * 0.1 == (h2 - h1) * 0.1;
      } else {
        assert (h2 - 0.7) / 0.3 - (h1 - 0.7) / 0.3 == (h2 - h1) / 0.3;
      }
    }
  }

  /** Grass brightens with height too, on all three channels alike, and
      strictly so. */
  lemma GrassBrightensWithHeight(h1: real, h2: real)
    requires h1 <= h2 < GrassTop
    ensures Ramp(h1).r <= Ramp(h2).r && Ramp(h1).g <= Ramp(h2).g && Ramp(h1).b <= Ramp(h2).b
    ensures h1 < h2 ==> Ramp(h1).r < Ramp(h2).r && Ramp(h1).g < Ramp(h2).g && Ramp(h1).b < Ramp(h2).b
  {
    assert h2 / 0.3 - h1 / 0.3 == (h2 - h1) / 0.3;
  }

  /** Channel `j % 3` of the vertex whose coordinates start at `j - j % 3`:
      the colour buffer entry `j`, read off that vertex's height `ps[j - j % 3 + 1]`. */
  function VertexColor(ps: seq<real>, displacement: real, j: nat): real
    requires |ps| % 3 == 0 && j < |ps| && displacement != 0.0
  {
    Ramp(NormalizedHeight(ps[j - j % 3 + 1], displacement)).Channel(j % 3)
  }

  /** The whole colour buffer for a flat position buffer of x, y, z triples. */
  function Colors(ps: seq<real>, displacement: real): (cs: seq<real>)
    requires |ps| % 3 == 0 && displacement != 0.0
    ensures |cs| == |ps|
  {
    seq(|ps|, j requires 0 <= j < |ps| => VertexColor(ps, displacement, j))
  }

  /** Fills a colour buffer as long as the position buffer, three channels
      per vertex. */
  method ComputeVertexColors(positions: array<real>, displacement: real) returns (colors: array<real>)
    requires positions.Length % 3 == 0 && displacement != 0.0
    ensures fresh(colors)
    ensures colors.Length == positions.Length
    ensures colors[..] == Colors(positions[..], displacement)
  {
    colors := new real[positions.Length];
    var i := 0;
    while i < positions.Length
      invariant 0 <= i <= positions.Length && i % 3 == 0
      invariant forall j :: 0 <= j < i ==> colors[j] == VertexColor(positions[..], displacement, j)
    {
      var y := positions[i + 1];
      var height := NormalizedHeight(y, displacement);
      var c := Ramp(height);
      colors[i] := c.r;
      colors[i + 1] := c.g;
      colors[i + 2] := c.b;
      i := i + 3;
    }
  }

  /** A vertex's colour depends on its own height only: its x and z, and
      every other vertex, leave it unchanged. */
  lemma ColorDependsOnHeightOnly(ps: seq<real>, qs: seq<real>, displacement: real, k: nat)
    requires |ps| % 3 == 0 && |qs| % 3 == 0 && displacement != 0.0
    requires 3 * k + 2 < |ps| && 3 * k + 2 < |qs| && ps[3 * k + 1] == qs[3 * k + 1]
    ensures Colors(ps, displacement)[3 * k .. 3 * k + 3] == Colors(qs, displacement)[3 * k .. 3 * k + 3]
  {
    var a, b := Colors(ps, displacement), Colors(qs, displacement);
    forall j | 3 * k <= j < 3 * k + 3
      ensures a[j] == b[j]
    {
      var c := j - 3 * k;
      assert j % 3 == c && j - j % 3 == 3 * k;
      assert a[j] == VertexColor(ps, displacement, j);
      assert b[j] == VertexColor(qs, displacement, j);
    }
    assert a[3 * k .. 3 * k + 3] == b[3 * k .. 3 * k + 3];
  }

  /** Vertices within the displaced range get colours inside [0.29, 1]. */
  lemma ColorsInRange(ps: seq<real>, displacement: real)
    requires |ps| % 3 == 0 && displacement > 0.0
    requires forall k :: 0 <= k < |ps| / 3 ==> -displacement / 2.0 <= ps[3 * k + 1] <= displacement / 2.0
    ensures forall j :: 0 <= j < |ps| ==> 0.29 <= Colors(ps, displacement)[j] <= 1.0
  {
    forall j | 0 <= j < |ps|
      ensures 0.29 <= Colors(ps, displacement)[j] <= 1.0
    {
      var k := j / 3;
      assert j - j % 3 == 3 * k;
      NormalizedRange(ps[3 * k + 1], displacement);
    }
  }
}
